=== FILE: README.md ===
# aircv matching core in Dafny

aircv.py finds a small "search" image inside a larger "source" image and reports where it is. It has two strategies:

- **Template correlation.** OpenCV's `matchTemplate` turns the pair of images into a grid of similarity scores. `find_all_template` then takes maxima repeatedly. It stops at the first maximum below the threshold, or when `maxcnt` results exist. Before each new round it overwrites the found region with -1000 using `floodFill` (fixed range, 4-connected). With a threshold above -1000, the same region therefore cannot be found again.
- **Keypoint matching.** `find_all_sift` returns `None` if either image has fewer than `min_match_count` keypoints. Otherwise it runs a loop. Each pass:
  - two-nearest-neighbour matching;
  - Lowe's ratio test (keep a match if its distance is below 0.7 times the second best);
  - stop when fewer than `min_match_count` good matches remain;
  - map the search image's corners through a homography and report the occurrence;
  - drop the matched keypoints before the next pass.

`find_all` picks the keypoint strategy when the search image has at least 20 keypoints, and the template strategy otherwise. It turns `None` into `[]` and keeps only the point of each occurrence. `find`, `find_template` and `find_sift` run the search capped at one occurrence.

The model has four modules:

- `Common`: the `Option` result, integer points, and "first element or `None`".
- `TemplateMatch`:
  - the score grid is an input value;
  - the extraction loop runs on an `array2<real>` copy that it changes in place, as aircv.py does with `res`;
  - `minMaxLoc` is a scan for the first maximum in row-major order;
  - `floodFill` is a worklist fill of the 4-connected fixed-range region, followed by painting that region with -1000;
  - `Extracted` is a recursive definition of the whole loop: the first maximum, the stop tests, the fill, and the loop again on the filled grid. The loop on the array is proved to report exactly its cells and to leave exactly its residue.
- `FeatureMatch`:
  - detected keypoints with their descriptors are input lists;
  - `knnMatch` and "homography + `perspectiveTransform` + `astype(int)`" are function-valued parameters;
  - the ratio test, index collection and `filter_index` are loops;
  - the `while True` loop is proved equal to `Rounds`. `Rounds` is a recursive definition of the occurrences reported by a loop with a given body `Round`.
- `Aircv`: `find_all` and `find`.

`floodFill` is given lower difference `max_val - threshold + 0.1` and upper difference `1` with `FLOODFILL_FIXED_RANGE`. A cell therefore joins the region when its score lies in `[threshold - 0.1, max_val + 1]` and it is 4-connected to the seed through such cells. Every side neighbour of a found cell that stays outside the region therefore scores below `threshold - 0.1`. As a result, when the threshold is above -1000, no later match is on or next to an earlier one. With a threshold of -1000 or less, a filled cell still reaches the threshold and can be reported again with score -1000.

`filter_index` is modelled as written (aircv.py:222-227). It ignores its `indexes` argument and always tests membership in `qindexes`. So the source keypoints are also filtered by the *query* indices of the good matches, and `FeatureMatch.NextStage` filters both feature lists by the same query indices.

## Model

| member | source | states |
|---|---|---|
| TemplateMatch.FirstMax | aircv.py:123 | the cell `minMaxLoc` reports as `max_loc`: a maximum of the grid that beats every earlier cell in row-major order |
| TemplateMatch.FirstMaxUnique | aircv.py:123 | the first maximum that `minMaxLoc` returns is unique |
| TemplateMatch.MaxLoc | aircv.py:123 | `minMaxLoc`: returns a cell in the grid whose value is the grid maximum and is greater than every earlier cell in row-major order; that cell is `FirstMax` of the array's contents |
| TemplateMatch.FirstMaxOfSnapshot | aircv.py:123 | the array-level maximum facts of `MaxLoc` are the first maximum of the grid value the array holds |
| TemplateMatch.Neighbours | aircv.py:138 | lists exactly the in-grid side neighbours: every listed cell is adjacent and in the grid, and every adjacent in-grid cell is listed (4-connectivity of `floodFill`) |
| TemplateMatch.Component | aircv.py:137-138 | the region `floodFill` paints with FLOODFILL_FIXED_RANGE and 4-connectivity: a cell is in it iff it is in the grid, its score is within `[seed - loDiff, seed + upDiff]`, and it lies in every cell set that holds the seed and is closed under in-range side neighbours |
| TemplateMatch.ComponentClosed | aircv.py:137-138 | every cell of the region is in the grid and in range, and the region is closed under in-range side neighbours |
| TemplateMatch.ComponentIs | aircv.py:137-138 | a set that holds the seed, is in range, is closed, and lies inside every closed set holding the seed is the region |
| TemplateMatch.FillRegion | aircv.py:138 | the worklist fill: the region contains the seed, only in-grid cells within `[seed - loDiff, seed + upDiff]`, every in-range side neighbour of a member, and lies inside every closed set holding the seed (so it is exactly `Component`) |
| TemplateMatch.Fill | aircv.py:138 | the grid after `floodFill`: same shape, the cells of `Component` are -1000, all other cells keep their score |
| TemplateMatch.Paint | aircv.py:138 | cells of the region become -1000 and all other cells keep their value |
| TemplateMatch.FloodFill | aircv.py:138 | the seed and every changed cell become -1000, only in-range cells change, the filled region is closed under in-range neighbours and is exactly `Component` of the old grid, and the new grid is `Fill` of the old grid |
| TemplateMatch.SuppressionShrinks | aircv.py:122-138 | with a threshold above -1000, filling the seed shrinks the set of cells at or above the threshold (termination measure of the loop) |
| TemplateMatch.RecordKeepsReported | aircv.py:130-134 | recording the current first maximum at or above the threshold keeps every reported fact: centre, score at or above threshold, first result is the grid's first maximum, distinct and non-adjacent cells, non-increasing scores |
| TemplateMatch.SuppressKeepsWorking | aircv.py:138 | filling the region of the found cell keeps the working-grid invariant: cells are original or -1000, found cells are filled, their side neighbours are below the threshold, and no live cell beats the last score |
| TemplateMatch.SuppressMatch | aircv.py:137-138 | the flood fill of a round with lower difference `max_val - threshold + 0.1` and upper difference `1` keeps the invariant. This includes the fact that every side neighbour of the found cell is filled or below the threshold. It also strictly shrinks the above-threshold set, and the new grid is `Fill` of the old one with those differences |
| TemplateMatch.FillShrinks | aircv.py:137-138 | with a threshold above -1000, the fill of a first maximum at or above the threshold removes a cell from the above-threshold set |
| TemplateMatch.Extracted | aircv.py:121-139 | the reference definition of the loop: the cells it reports, the `max_val` reported with each, and the grid it leaves; never more than `maxcnt` cells when `maxcnt > 0`, and the residue has the grid's shape |
| TemplateMatch.ExtractedStep | aircv.py:122-138 | one pass of `Extracted` at the first maximum: below the threshold nothing more, at the cap that cell and its score only, otherwise that cell and its score and then `Extracted` of the filled grid |
| TemplateMatch.ExtractedExhausts | aircv.py:130-131 | when the cap did not stop the loop, every cell of `Extracted`'s residue is below the threshold |
| TemplateMatch.TracksStop | aircv.py:130-131 | a first maximum below the threshold ends the loop with the cells and scores found so far and the current grid |
| TemplateMatch.TracksRecord | aircv.py:130-138 | recording a first maximum at or above the threshold either reaches the cap and ends `Extracted` there, or keeps the loop in step with `Extracted` on the filled grid |
| TemplateMatch.ExtractRound | aircv.py:122-138 | one pass of `while True` on the array: keeps the reported facts; when it stops, the found cells and the array are `Extracted`'s; otherwise it adds exactly the centre and score of the array's first maximum, leaves the array as `Fill` of the old one seeded there with lower difference `max_val - threshold + 0.1` and upper difference `1`, keeps the working invariant and the link to `Extracted`, and shrinks the above-threshold set |
| TemplateMatch.Extract | aircv.py:121-139 | the `while True` loop: all reported facts hold (with a threshold above -1000 this includes that no match is on or next to an earlier match's cell), every reported score is `Extracted`'s score for that round, at most `maxcnt` results when `maxcnt > 0`, the residue only holds original scores or -1000, when the cap did not stop the loop every residue cell is below the threshold, and the found cells and the residue (the final array) are exactly `Extracted`'s |
| TemplateMatch.NoMatchIffBelow | aircv.py:130-131 | the result is empty if and only if every score of the grid is below the threshold |
| TemplateMatch.FindAllTemplate | aircv.py:81-139 | `find_all_template` on a score grid: cap, every result the centre of an in-grid cell with score at or above threshold, empty iff all scores are below threshold, first result at the first maximum, every score exactly `Extracted`'s score for its round, with a threshold above -1000 distinct cells that are never side-adjacent (the fill at aircv.py:137-138 swallowed the neighbours) and non-increasing original scores, the found cells and the residue exactly `Extracted`'s, and when the cap did not stop it every residue cell below the threshold |
| TemplateMatch.FindTemplate | aircv.py:73-79 | `find_template`: `None` iff all scores are below the threshold, otherwise the centre and score of the grid's first maximum |
| FeatureMatch.GoodMatches | aircv.py:183-186 | the ratio test never keeps more good matches than there are pairs |
| FeatureMatch.GoodMatchesExact | aircv.py:183-186 | a match is kept iff it is the best match of a pair with `m.distance < 0.7 * n.distance` (both directions) |
| FeatureMatch.GoodMatchesIndexed | aircv.py:183-192 | kept matches index into the search and source keypoint lists whenever the matcher's best matches do |
| FeatureMatch.RatioTest | aircv.py:183-186 | the `for m, n in matches` loop computes exactly `GoodMatches`, in matcher order |
| FeatureMatch.KeptIndices | aircv.py:224-226 | at most `n` positions survive |
| FeatureMatch.KeptIndicesExact | aircv.py:224-226 | the surviving positions are exactly the positions below `n` not in `qindexes`, strictly increasing |
| FeatureMatch.KeptIndicesShrink | aircv.py:224-226 | listing a position below `n` removes at least one |
| FeatureMatch.WithoutIndices | aircv.py:222-227 | the filtered list has one item per surviving position |
| FeatureMatch.WithoutIndicesPicks | aircv.py:222-227 | the `k`-th item of the filtered list is the item at the `k`-th surviving position (order preserved) |
| FeatureMatch.FilterIndex | aircv.py:222-227 | the `filter_index` loop returns `WithoutIndices(arr, qindexes)` whatever `indexes` is |
| FeatureMatch.SearchPoints | aircv.py:191 | `[kp_sch[m.queryIdx].pt for m in good]`: element `k` is the position of the search keypoint that good match `k` names |
| FeatureMatch.SourcePoints | aircv.py:192 | `[kp_src[m.trainIdx].pt for m in good]`: element `k` is the position of the source keypoint that good match `k` names |
| FeatureMatch.QueryIndices | aircv.py:217-219 | element `k` of `qindexes` is the query index of good match `k` |
| FeatureMatch.TrainIndices | aircv.py:217-220 | element `k` of `tindexes` is the train index of good match `k` |
| FeatureMatch.MatchedIndices | aircv.py:217-220 | the loop builds exactly `qindexes` and `tindexes` |
| FeatureMatch.QueryIndicesMembers | aircv.py:217-219 | an index is in `qindexes` if and only if some good match has it as its query index |
| FeatureMatch.NextStage | aircv.py:229-232 | filtering never grows the search list, and removes at least one search keypoint when a good match exists |
| FeatureMatch.StageGood | aircv.py:182-186 | good matches of a stage index into both of its keypoint lists |
| FeatureMatch.Round | aircv.py:181-232 | a pass stops iff fewer than `min_match_count` good matches remain; with `min_match_count >= 1` a reporting pass strictly shrinks the search keypoints |
| FeatureMatch.Rounds | aircv.py:181-214 | the loop reports nothing iff its first pass stops, and otherwise starts with that pass's occurrence |
| FeatureMatch.RoundsAdvance | aircv.py:211-232 | a pass below the cap appends its occurrence and continues from the filtered stage, keeping the final total |
| FeatureMatch.RoundsCapped | aircv.py:213-214 | with `maxcnt > 0` there are never more than `maxcnt` occurrences |
| FeatureMatch.RoundsBounded | aircv.py:181-232 | when every reporting pass consumes a search keypoint, there are at most as many occurrences as search keypoints |
| FeatureMatch.RoundsCentred | aircv.py:208-211 | every occurrence's point is its first corner plus `(w/2, h/2)` |
| FeatureMatch.SiftRound | aircv.py:181-232 | the loop body of `find_all_sift` shrinks the search keypoints when `min_match_count >= 1` and reports only centred occurrences |
| FeatureMatch.Locate | aircv.py:182-211 | match, ratio test and location: `None` iff the pass stops, otherwise the pass's occurrence and next stage |
| FeatureMatch.Advance | aircv.py:217-232 | the index collection and four `filter_index` calls produce the next stage |
| FeatureMatch.SiftRounds | aircv.py:180-234 | the `while True` loop returns exactly `Rounds` of the initial keypoint lists |
| FeatureMatch.FindAllSift | aircv.py:157-234 | `find_all_sift`: `None` iff either keypoint list is shorter than `min_match_count`; otherwise the loop's occurrences, at most `maxcnt` when `maxcnt > 0`, at most one per search keypoint when `min_match_count >= 1`, each centred on its first corner |
| FeatureMatch.FindSift | aircv.py:150-154 | `find_sift`: same `None` condition, at most one occurrence, and none iff the first pass has fewer than `min_match_count` good matches. When there is an occurrence, it is the entry (centre and corners) of the first pass, which reports |
| Aircv.Points | aircv.py:247 | `[point for point, score in result]`: same length, element `k` is the point of pair `k` |
| Aircv.FindAll | aircv.py:236-247 | `find_all`: with at least 20 search keypoints the keypoint search (min match count 10, `None` becomes `[]`), otherwise the template search (threshold 0.5), which is empty iff all scores are below 0.5 and whose first point is the centre of the first maximum. On the template path the points are, in order, the centres of exactly the cells `Extracted` reports, each in the grid with score at least 0.5, pairwise distinct and never side-adjacent. Never more than `maxcnt` points |
| Aircv.Find | aircv.py:249-254 | `find`: on the keypoint path `None` iff the source has fewer than 10 keypoints or the first pass has fewer than 10 good matches, otherwise that pass's point; on the template path `None` iff all scores are below 0.5, otherwise the centre of the first maximum |

## Left out

- File reading, display, point drawing, the demo `main` and the `DEBUG` print (aircv.py:48-71, 128-129, 256-292): I/O and GUI, with no effect on results.
- `matchTemplate`, `cvtColor`, `split`, the 0.3/0.3/0.4 channel weighting and `Canny` (aircv.py:100-118): the score grid they produce is an input. The `rgb` and `bgremove` flags of `find_template` therefore do not appear.
- The `TM_SQDIFF` branch (aircv.py:124-127) is not modelled: the method is fixed to `TM_CCOEFF_NORMED`, so the maximum location is always used.
- SIFT detection, the module-level `sift` and `flann` objects, `knnMatch`, `findHomography`, `perspectiveTransform` and `astype(int)` are not modelled: they are foreign calls and float linear algebra. Detected keypoints are inputs, and the matcher and the corner mapping are function parameters.
- `sift_count(im_search)` is the length of the search keypoint list. This is the same detector on the same image as the first step of `find_all_sift`.
- A homography that OpenCV cannot fit (`M` is `None`, and `perspectiveTransform` raises) is not modelled: the corner mapping is total.
- A `knnMatch` row with fewer than two neighbours (the `m, n` unpacking raises) is not modelled: matches are typed as pairs.
- FeatureMatch.KnnIndexed: the matcher is required to return indices inside the lists it was given, which OpenCV guarantees.
- Keypoints and descriptors are one list of pairs. aircv.py keeps two lists per image (keypoints and descriptors) and filters both by the same positions, so they stay aligned. The flattening that `np.append` applies to the filtered arrays is not modelled: from the second pass on, aircv.py's `des_sch` and `des_src` are 1-D arrays, while the model's later passes still describe lists of per-keypoint descriptors.
- The search image is assumed to be a 3-channel (BGR) image, as the `cvtColor(..., COLOR_BGR2GRAY)` path expects. On a 2-D grayscale image the unpacking `h, w = im_search.shape[1:]` (aircv.py:178) raises. For 3-channel images that assignment is dead, because line 198 overwrites it before any use, so it is not modelled.
- Scores and distances are mathematical reals rather than float32/float64, so rounding is ignored.
- `maxcnt` is a natural number. A negative `maxcnt`, which Python treats as a cap reached after the first result, is not modelled.
- TemplateMatch.FindAllTemplate: requires a threshold above -1000 or a positive `maxcnt`. Otherwise a filled cell scoring -1000 is at or above the threshold, and the loop in aircv.py need not end. With a threshold of -1000 or less and a positive `maxcnt`, a filled cell can be reported again with score -1000: distinctness, non-adjacency and the original-score clause are stated only for thresholds above -1000, and the scores are then given by `Extracted`.
- FeatureMatch.FindAllSift: requires `min_match_count >= 1` or a positive `maxcnt`. With both zero, a pass with no good matches calls `findHomography` on no points.
- TemplateMatch.FloodFill: OpenCV's mask border and its 8-connectivity option are not modelled. The source uses the default 4-connectivity and no mask.

=== FILE: common.dfy ===
/**
  Values shared by both matching strategies: the optional result and the
  integer pixel position that every strategy reports.
 */
module Common {

  /** `None` stands for Python's `None` result. */
  datatype Option<+T> = None | Some(value: T)

  /** An integer pixel position; `x` is the column and `y` the row, as OpenCV reports points. */
  datatype Point = Point(x: int, y: int)

  /** `r[0] if r else None`: the first element of a result list, if any. */
  function First<T>(r: seq<T>): (o: Option<T>)
    ensures o.None? <==> r == []
    ensures o.Some? ==> o.value == r[0]
  {
    if r == [] then None else Some(r[0])
  }
}

=== FILE: feature_match.dfy ===
/**
  The keypoint strategy of aircv.py: SIFT keypoints of both images, FLANN
  two-nearest-neighbour matching with Lowe's ratio test, a homography that
  places the search image's corners in the source image, and removal of the
  matched keypoints before the next round.

  Keypoint detection, the FLANN matcher and the homography with its
  perspective transform are OpenCV calls; here they are inputs: the
  detected features are arguments and the two matchers are function values.
 */
module FeatureMatch {
  import opened Common

  /** Lowe's ratio: a best match is good when it is closer than 0.7 times the second best. */
  const Ratio: real := 0.7

  /** A keypoint's position (`kp.pt`). */
  datatype KeyPoint = KeyPoint(x: real, y: real)

  /** One SIFT descriptor vector. */
  type Descriptor = seq<real>

  /**
    A detected keypoint with its descriptor. `sift.detectAndCompute` returns
    the keypoints and the descriptors as two lists of equal length; the
    model keeps them as one list of pairs, which is what filtering both
    lists by the same positions preserves.
   */
  datatype Feature = Feature(pt: KeyPoint, des: Descriptor)

  /** A FLANN match: index into the search descriptors, index into the source descriptors, distance. */
  datatype DMatch = DMatch(queryIdx: nat, trainIdx: nat, distance: real)

  /** The four transformed corners, in the order top-left, bottom-left, bottom-right, top-right. */
  datatype Quad = Quad(p0: Point, p1: Point, p2: Point, p3: Point)

  /** A reported occurrence: `(middle_point, pypts)`. */
  type SiftMatch = (Point, Quad)

  /** `flann.knnMatch(des_sch, des_src, k=2)`: the two nearest source descriptors of each search descriptor. */
  type KnnMatcher = (seq<Feature>, seq<Feature>) -> seq<(DMatch, DMatch)>

  /**
    `findHomography(sch_pts, img_pts, RANSAC, 5.0)` followed by `perspectiveTransform`
    of the corners of a `w` by `h` search image and truncation to integers.
   */
  type CornerMapper = (seq<KeyPoint>, seq<KeyPoint>, nat, nat) -> Quad

  /** The best match of every pair indexes below `nq` into the query list and below `nt` into the train list. */
  predicate PairsIndexed(ms: seq<(DMatch, DMatch)>, nq: nat, nt: nat)
  {
    forall k :: 0 <= k < |ms| ==> ms[k].0.queryIdx < nq && ms[k].0.trainIdx < nt
  }

  /** The matcher's best match of every pair indexes into the feature lists it was given. */
  ghost predicate KnnIndexed(knn: KnnMatcher)
  {
    forall q, t :: PairsIndexed(knn(q, t), |q|, |t|)
  }

  predicate PassesRatio(p: (DMatch, DMatch))
  {
    p.0.distance < Ratio * p.1.distance
  }

  /** The best match of every pair that passes the ratio test, in the matcher's order. */
  function GoodMatches(ms: seq<(DMatch, DMatch)>): (good: seq<DMatch>)
    ensures |good| <= |ms|
  {
    if ms == [] then []
    else
      var p := ms[|ms| - 1];
      GoodMatches(ms[..|ms| - 1]) + (if PassesRatio(p) then [p.0] else [])
  }

  /** A good match is the best match of a pair that passes the ratio test, and every such pair yields one. */
  lemma {:induction false} GoodMatchesExact(ms: seq<(DMatch, DMatch)>, m: DMatch)
    ensures m in GoodMatches(ms) <==> exists p :: p in ms && PassesRatio(p) && p.0 == m
  {
    if ms != [] {
      var front, last := ms[..|ms| - 1], ms[|ms| - 1];
      assert ms == front + [last];
      GoodMatchesExact(front, m);
      assert forall p :: p in ms <==> p in front || p == last;
    }
  }

  /** If every pair is indexed within the given bounds, so is every good match. */
  lemma GoodMatchesIndexed(ms: seq<(DMatch, DMatch)>, nq: nat, nt: nat)
    requires PairsIndexed(ms, nq, nt)
    ensures forall k :: 0 <= k < |GoodMatches(ms)| ==> GoodMatches(ms)[k].queryIdx < nq && GoodMatches(ms)[k].trainIdx < nt
  {
    forall k | 0 <= k < |GoodMatches(ms)|
      ensures GoodMatches(ms)[k].queryIdx < nq && GoodMatches(ms)[k].trainIdx < nt
    {
      var m := GoodMatches(ms)[k];
      GoodMatchesExact(ms, m);
      var p :| p in ms && PassesRatio(p) && p.0 == m;
      var i :| 0 <= i < |ms| && ms[i] == p;
    }
  }

  /** The `for m, n in matches` loop that collects the good matches. */
  method RatioTest(matches: seq<(DMatch, DMatch)>) returns (good: seq<DMatch>)
    ensures good == GoodMatches(matches)
  {
    good := [];
    var i := 0;
    while i < |matches|
      invariant 0 <= i <= |matches|
      invariant good == GoodMatches(matches[..i])
    {
      assert matches[..i + 1][..i] == matches[..i];
      if PassesRatio(matches[i]) {
        good := good + [matches[i].0];
      }
      i := i + 1;
    }
    assert matches[..i] == matches;
  }

  /** The positions below `n` that are not listed in `q`, in increasing order. */
  function KeptIndices(n: nat, q: seq<nat>): (r: seq<nat>)
    ensures |r| <= n
  {
    if n == 0 then [] else KeptIndices(n - 1, q) + (if n - 1 in q then [] else [n - 1])
  }

  /**
    `KeptIndices(n, q)` lists exactly the positions below `n` missing from
    `q`, each once and in increasing order.
   */
  lemma {:induction false} KeptIndicesExact(n: nat, q: seq<nat>)
    ensures forall k :: 0 <= k < |KeptIndices(n, q)| ==> KeptIndices(n, q)[k] < n && KeptIndices(n, q)[k] !in q
    ensures forall k, l :: 0 <= k < l < |KeptIndices(n, q)| ==> KeptIndices(n, q)[k] < KeptIndices(n, q)[l]
    ensures forall i :: 0 <= i < n && i !in q ==> i in KeptIndices(n, q)
  {
    if n > 0 {
      KeptIndicesExact(n - 1, q);
    }
  }

  /** Listing a position below `n` removes at least one position. */
  lemma {:induction false} KeptIndicesShrink(n: nat, q: seq<nat>, i: nat)
    requires i < n && i in q
    ensures |KeptIndices(n, q)| < n
  {
    if i < n - 1 {
      KeptIndicesShrink(n - 1, q, i);
    }
  }

  /** The items of `arr` whose position is not listed in `q`, in their order. */
  function WithoutIndices<T>(arr: seq<T>, q: seq<nat>): (r: seq<T>)
    ensures |r| == |KeptIndices(|arr|, q)|
  {
    if arr == [] then []
    else
      var n := |arr| - 1;
      WithoutIndices(arr[..n], q) + (if n in q then [] else [arr[n]])
  }

  /** The `k`-th kept item is the item at the `k`-th kept position. */
  lemma {:induction false} WithoutIndicesPicks<T>(arr: seq<T>, q: seq<nat>)
    ensures forall k :: 0 <= k < |WithoutIndices(arr, q)| ==>
              KeptIndices(|arr|, q)[k] < |arr| && WithoutIndices(arr, q)[k] == arr[KeptIndices(|arr|, q)[k]]
  {
    KeptIndicesExact(|arr|, q);
    if arr != [] {
      var n := |arr| - 1;
      WithoutIndicesPicks(arr[..n], q);
    }
  }

  /**
    The nested `filter_index(indexes, arr)`: keeps the items of `arr` whose
    position is not in `qindexes`. As in aircv.py, the `indexes` argument
    is not consulted; the filter always uses the query indexes of the round.
   */
  method FilterIndex<T>(indexes: seq<nat>, arr: seq<T>, qindexes: seq<nat>) returns (r: seq<T>)
    ensures r == WithoutIndices(arr, qindexes)
  {
    r := [];
    var i := 0;
    while i < |arr|
      invariant 0 <= i <= |arr|
      invariant r == WithoutIndices(arr[..i], qindexes)
    {
      assert arr[..i + 1][..i] == arr[..i];
      if i !in qindexes {
        r := r + [arr[i]];
      }
      i := i + 1;
    }
    assert arr[..i] == arr;
  }

  /** The features of both images still in play at the start of a round. */
  datatype Stage = Stage(search: seq<Feature>, source: seq<Feature>)

  /** Every good match indexes a feature of both images of the stage. */
  predicate IndexedIn(good: seq<DMatch>, st: Stage)
  {
    forall k :: 0 <= k < |good| ==> good[k].queryIdx < |st.search| && good[k].trainIdx < |st.source|
  }

  /** `[kp_sch[m.queryIdx].pt for m in good]`. */
  function SearchPoints(st: Stage, good: seq<DMatch>): (pts: seq<KeyPoint>)
    requires IndexedIn(good, st)
    ensures |pts| == |good|
    ensures forall k :: 0 <= k < |good| ==> pts[k] == st.search[good[k].queryIdx].pt
  {
    if good == [] then []
    else SearchPoints(st, good[..|good| - 1]) + [st.search[good[|good| - 1].queryIdx].pt]
  }

  /** `[kp_src[m.trainIdx].pt for m in good]`. */
  function SourcePoints(st: Stage, good: seq<DMatch>): (pts: seq<KeyPoint>)
    requires IndexedIn(good, st)
    ensures |pts| == |good|
    ensures forall k :: 0 <= k < |good| ==> pts[k] == st.source[good[k].trainIdx].pt
  {
    if good == [] then []
    else SourcePoints(st, good[..|good| - 1]) + [st.source[good[|good| - 1].trainIdx].pt]
  }

  /** The reported point lies `(w/2, h/2)` (integer halves) from the first mapped corner. */
  predicate Centred(e: SiftMatch, w: nat, h: nat)
  {
    e.0 == Point(e.1.p0.x + w / 2, e.1.p0.y + h / 2)
  }

  /**
    One reported occurrence: the corners of the search image mapped by the
    homography of the matched keypoint pairs, and the middle point
    `(lt[0] + w/2, lt[1] + h/2)` computed from the top-left corner.
   */
  function RoundEntry(st: Stage, good: seq<DMatch>, w: nat, h: nat, corners: CornerMapper): (e: SiftMatch)
    requires IndexedIn(good, st)
    ensures e.1 == corners(SearchPoints(st, good), SourcePoints(st, good), w, h)
    ensures Centred(e, w, h)
  {
    var quad := corners(SearchPoints(st, good), SourcePoints(st, good), w, h);
    (Point(quad.p0.x + w / 2, quad.p0.y + h / 2), quad)
  }

  /** `qindexes`: the query index of every good match, in order. */
  function QueryIndices(good: seq<DMatch>): (q: seq<nat>)
    ensures |q| == |good|
    ensures forall k :: 0 <= k < |good| ==> q[k] == good[k].queryIdx
  {
    if good == [] then [] else QueryIndices(good[..|good| - 1]) + [good[|good| - 1].queryIdx]
  }

  /** `tindexes`: the train index of every good match, in order. */
  function TrainIndices(good: seq<DMatch>): (t: seq<nat>)
    ensures |t| == |good|
    ensures forall k :: 0 <= k < |good| ==> t[k] == good[k].trainIdx
  {
    if good == [] then [] else TrainIndices(good[..|good| - 1]) + [good[|good| - 1].trainIdx]
  }

  /** The loop that lists the search and source index of every good match. */
  method MatchedIndices(good: seq<DMatch>) returns (qindexes: seq<nat>, tindexes: seq<nat>)
    ensures qindexes == QueryIndices(good) && tindexes == TrainIndices(good)
  {
    qindexes, tindexes := [], [];
    var i := 0;
    while i < |good|
      invariant 0 <= i <= |good|
      invariant qindexes == QueryIndices(good[..i]) && tindexes == TrainIndices(good[..i])
    {
      assert good[..i + 1][..i] == good[..i];
      qindexes := qindexes + [good[i].queryIdx];
      tindexes := tindexes + [good[i].trainIdx];
      i := i + 1;
    }
    assert good[..i] == good;
  }

  /** An index is listed in `qindexes` exactly when some good match has it as its query index. */
  lemma QueryIndicesMembers(good: seq<DMatch>, i: nat)
    ensures i in QueryIndices(good) <==> exists k :: 0 <= k < |good| && good[k].queryIdx == i
  {
    var q := QueryIndices(good);
    if i in q {
      var k :| 0 <= k < |q| && q[k] == i;
      assert good[k].queryIdx == i;
    }
  }

  /**
    The stage of the next round: `filter_index(qindexes, ·)` applied to the
    features of both images, so the source features are filtered by the
    query indexes too. A round with at least one good match removes at
    least one search feature.
   */
  function NextStage(st: Stage, good: seq<DMatch>): (next: Stage)
    ensures |next.search| <= |st.search|
    ensures good != [] && good[0].queryIdx < |st.search| ==> |next.search| < |st.search|
  {
    var q := QueryIndices(good);
    assert good != [] && good[0].queryIdx < |st.search| ==> |KeptIndices(|st.search|, q)| < |st.search| by {
      if good != [] && good[0].queryIdx < |st.search| {
        assert q[0] == good[0].queryIdx;
        KeptIndicesShrink(|st.search|, q, good[0].queryIdx);
      }
    }
    Stage(WithoutIndices(st.search, q), WithoutIndices(st.source, q))
  }

  /** The good matches of a stage. */
  function StageGood(st: Stage, knn: KnnMatcher): (good: seq<DMatch>)
    requires KnnIndexed(knn)
    ensures IndexedIn(good, st)
  {
    var ms := knn(st.search, st.source);
    GoodMatchesIndexed(ms, |st.search|, |st.source|);
    GoodMatches(ms)
  }

  /** What one pass of the loop body does with a stage: stop, or report an occurrence and continue from a new stage. */
  datatype Outcome = Stop | Report(entry: SiftMatch, next: Stage)

  /**
    The body of the `while True` loop of `find_all_sift`: match, apply the
    ratio test, stop when fewer than `mmc` good matches remain, otherwise
    locate the occurrence and drop the matched features.
   */
  function Round(st: Stage, w: nat, h: nat, mmc: nat, knn: KnnMatcher, corners: CornerMapper): (o: Outcome)
    requires KnnIndexed(knn)
    ensures o.Stop? <==> |StageGood(st, knn)| < mmc
    ensures 1 <= mmc && o.Report? ==> |o.next.search| < |st.search|
  {
    var good := StageGood(st, knn);
    if |good| < mmc then Stop
    else Report(RoundEntry(st, good, w, h, corners), NextStage(st, good))
  }

  /** A step function that removes at least one search feature whenever it reports. */
  ghost predicate Shrinking(round: Stage -> Outcome)
  {
    forall st :: round(st).Report? ==> |round(st).next.search| < |st.search|
  }

  /**
    The occurrences a loop with body `round` reports from stage `st` on,
    `done` of them having been reported before: the loop ends when the body
    stops, and also on reaching `maxcnt` occurrences when `maxcnt` is positive.
   */
  ghost function Rounds(st: Stage, round: Stage -> Outcome, maxcnt: nat, done: nat): (r: seq<SiftMatch>)
    requires 0 < maxcnt || Shrinking(round)
    requires 0 < maxcnt ==> done < maxcnt
    ensures r == [] <==> round(st).Stop?
    ensures r != [] ==> r[0] == round(st).entry
    decreases if 0 < maxcnt then maxcnt - done else 0, |st.search|
  {
    match round(st)
    case Stop => []
    case Report(entry, next) =>
      if 0 < maxcnt && done + 1 >= maxcnt then [entry]
      else [entry] + Rounds(next, round, maxcnt, done + 1)
  }

  /**
    A reporting pass below the cap contributes its occurrence and hands over
    to the next stage: appending the occurrence to what was reported before
    keeps the total that the loop ends with.
   */
  lemma RoundsAdvance(before: seq<SiftMatch>, st: Stage, round: Stage -> Outcome, maxcnt: nat, entry: SiftMatch, next: Stage)
    requires 0 < maxcnt || Shrinking(round)
    requires 0 < maxcnt ==> |before| + 1 < maxcnt
    requires round(st) == Report(entry, next)
    ensures (before + [entry]) + Rounds(next, round, maxcnt, |before| + 1) == before + Rounds(st, round, maxcnt, |before|)
  {
    var rest := Rounds(next, round, maxcnt, |before| + 1);
    assert Rounds(st, round, maxcnt, |before|) == [entry] + rest;
    assert (before + [entry]) + rest == before + ([entry] + rest);
  }

  /** With a positive `maxcnt`, the loop never takes the count past it. */
  lemma {:induction false} RoundsCapped(st: Stage, round: Stage -> Outcome, maxcnt: nat, done: nat)
    requires 0 < maxcnt && done < maxcnt
    ensures done + |Rounds(st, round, maxcnt, done)| <= maxcnt
    decreases maxcnt - done
  {
    if round(st).Report? && done + 1 < maxcnt {
      RoundsCapped(round(st).next, round, maxcnt, done + 1);
    }
  }

  /**
    When every reporting pass consumes a search feature, there are never
    more occurrences than search features.
   */
  lemma {:induction false} RoundsBounded(st: Stage, round: Stage -> Outcome, maxcnt: nat, done: nat)
    requires Shrinking(round)
    requires 0 < maxcnt ==> done < maxcnt
    ensures |Rounds(st, round, maxcnt, done)| <= |st.search|
    decreases |st.search|
  {
    if round(st).Report? && !(0 < maxcnt && done + 1 >= maxcnt) {
      RoundsBounded(round(st).next, round, maxcnt, done + 1);
    }
  }

  /** Every occurrence a step function reports is centred for a `w` by `h` search image. */
  ghost predicate ReportsCentred(round: Stage -> Outcome, w: nat, h: nat)
  {
    forall st :: round(st).Report? ==> Centred(round(st).entry, w, h)
  }

  /** A loop whose body only reports centred occurrences returns only centred occurrences. */
  lemma {:induction false} RoundsCentred(st: Stage, round: Stage -> Outcome, maxcnt: nat, done: nat, w: nat, h: nat)
    requires 0 < maxcnt || Shrinking(round)
    requires 0 < maxcnt ==> done < maxcnt
    requires ReportsCentred(round, w, h)
    ensures forall k :: 0 <= k < |Rounds(st, round, maxcnt, done)| ==> Centred(Rounds(st, round, maxcnt, done)[k], w, h)
    decreases if 0 < maxcnt then maxcnt - done else 0, |st.search|
  {
    if round(st).Report? && !(0 < maxcnt && done + 1 >= maxcnt) {
      RoundsCentred(round(st).next, round, maxcnt, done + 1, w, h);
    }
  }

  /** The loop body of `find_all_sift` for a given search size, minimum match count and matchers. */
  function SiftRound(w: nat, h: nat, mmc: nat, knn: KnnMatcher, corners: CornerMapper): (round: Stage -> Outcome)
    requires KnnIndexed(knn)
    ensures 1 <= mmc ==> Shrinking(round)
    ensures ReportsCentred(round, w, h)
  {
    (st: Stage) => Round(st, w, h, mmc, knn, corners)
  }

  /**
    The end of a reporting pass: collect the query and train indices of the
    good matches and filter both feature lists, both by the query indices.
   */
  method Advance(sch: seq<Feature>, src: seq<Feature>, good: seq<DMatch>) returns (sch': seq<Feature>, src': seq<Feature>)
    ensures Stage(sch', src') == NextStage(Stage(sch, src), good)
  {
    var qindexes, tindexes := MatchedIndices(good);
    sch' := FilterIndex(qindexes, sch, qindexes);
    src' := FilterIndex(tindexes, src, qindexes);
  }

  /**
    The first half of a pass: match, apply the ratio test and, when enough
    good matches remain, locate the occurrence. Dropping the matched
    features (`Advance`) happens only when the loop goes on.
   */
  method Locate(st: Stage, w: nat, h: nat, minMatchCount: nat, knn: KnnMatcher, corners: CornerMapper,
                ghost round: Stage -> Outcome)
    returns (found: Option<SiftMatch>, good: seq<DMatch>)
    requires KnnIndexed(knn)
    requires round(st) == Round(st, w, h, minMatchCount, knn, corners)
    ensures found.None? <==> round(st).Stop?
    ensures found.Some? ==> round(st) == Report(found.value, NextStage(st, good))
  {
    var matches := knn(st.search, st.source);
    good := RatioTest(matches);
    assert good == StageGood(st, knn);
    if |good| < minMatchCount {
      return None, good;
    }
    found := Some(RoundEntry(st, good, w, h, corners));
  }

  /**
    The `while True` loop of `find_all_sift`: run passes of `Round` over the
    shrinking feature lists until one stops or `maxcnt` occurrences have
    been reported.
   */
  method SiftRounds(search: seq<Feature>, source: seq<Feature>, w: nat, h: nat, minMatchCount: nat, maxcnt: nat,
                    knn: KnnMatcher, corners: CornerMapper, ghost round: Stage -> Outcome)
    returns (result: seq<SiftMatch>)
    requires KnnIndexed(knn)
    requires forall st {:trigger Round(st, w, h, minMatchCount, knn, corners)} :: round(st) == Round(st, w, h, minMatchCount, knn, corners)
    requires 0 < maxcnt || Shrinking(round)
    ensures result == Rounds(Stage(search, source), round, maxcnt, 0)
  {
    var sch, src := search, source;
    result := [];
    while true
      invariant 0 < maxcnt ==> |result| < maxcnt
      invariant result + Rounds(Stage(sch, src), round, maxcnt, |result|) == Rounds(Stage(search, source), round, maxcnt, 0)
      decreases if 0 < maxcnt then maxcnt - |result| else 0, |sch|
    {
      var st := Stage(sch, src);
      var found, good := Locate(st, w, h, minMatchCount, knn, corners, round);
      if found.None? {
        break;
      }
      ghost var before := result;
      result := result + [found.value];
      if 0 < maxcnt && |result| >= maxcnt {
        break;
      }
      sch, src := Advance(sch, src, good);
      assert round(st) == Report(found.value, Stage(sch, src));
      RoundsAdvance(before, st, round, maxcnt, found.value, Stage(sch, src));
    }
  }

  /**
    `find_all_sift`: `None` when either image has fewer than
    `minMatchCount` keypoints, otherwise the occurrences of the rounds.
   */
  method FindAllSift(search: seq<Feature>, source: seq<Feature>, w: nat, h: nat, minMatchCount: nat, maxcnt: nat,
                     knn: KnnMatcher, corners: CornerMapper)
    returns (r: Option<seq<SiftMatch>>)
    requires KnnIndexed(knn)
    requires 1 <= minMatchCount || 0 < maxcnt
    ensures r.None? <==> |search| < minMatchCount || |source| < minMatchCount
    ensures r.Some? ==> r.value == Rounds(Stage(search, source), SiftRound(w, h, minMatchCount, knn, corners), maxcnt, 0)
    ensures r.Some? && 0 < maxcnt ==> |r.value| <= maxcnt
    ensures r.Some? && 1 <= minMatchCount ==> |r.value| <= |search|
    ensures r.Some? ==> forall k :: 0 <= k < |r.value| ==> Centred(r.value[k], w, h)
  {
    if |search| < minMatchCount {
      return None;
    }
    if |source| < minMatchCount {
      return None;
    }
    var result := SiftRounds(search, source, w, h, minMatchCount, maxcnt, knn, corners, SiftRound(w, h, minMatchCount, knn, corners));
    r := Some(result);
    if 0 < maxcnt {
      RoundsCapped(Stage(search, source), SiftRound(w, h, minMatchCount, knn, corners), maxcnt, 0);
    }
    if 1 <= minMatchCount {
      RoundsBounded(Stage(search, source), SiftRound(w, h, minMatchCount, knn, corners), maxcnt, 0);
    }
    RoundsCentred(Stage(search, source), SiftRound(w, h, minMatchCount, knn, corners), maxcnt, 0, w, h);
  }

  /** `find_sift`: the keypoint search capped at one occurrence; the whole (at most one-element) list is returned. */
  method FindSift(search: seq<Feature>, source: seq<Feature>, w: nat, h: nat, minMatchCount: nat,
                  knn: KnnMatcher, corners: CornerMapper)
    returns (r: Option<seq<SiftMatch>>)
    requires KnnIndexed(knn)
    ensures r.None? <==> |search| < minMatchCount || |source| < minMatchCount
    ensures r.Some? ==> |r.value| <= 1
    ensures r.Some? ==> (r.value == [] <==> |StageGood(Stage(search, source), knn)| < minMatchCount)
    ensures r.Some? && r.value != [] ==>
              var first := Round(Stage(search, source), w, h, minMatchCount, knn, corners);
              first.Report? && r.value == [first.entry]
  {
    r := FindAllSift(search, source, w, h, minMatchCount, 1, knn, corners);
    assert SiftRound(w, h, minMatchCount, knn, corners)(Stage(search, source)) == Round(Stage(search, source), w, h, minMatchCount, knn, corners);
  }
}

=== FILE: selector.dfy ===
/**
  The entry points of aircv.py: `find_all` prefers the keypoint search when
  the search image has enough keypoints and falls back to template
  matching otherwise, keeping only the point of every occurrence; `find`
  keeps the first point, if any.

  Both strategies look at the same two images. The model takes what each
  strategy derives from them as inputs: the template score grid, the
  detected features of both images, and the two OpenCV matchers.
 */
module Aircv {
  import opened Common
  import TemplateMatch
  import FeatureMatch

  /** `find_all` uses the keypoint search when the search image has at least this many keypoints. */
  const SiftRichness: nat := 20

  /** The default `threshold` of `find_all_template`. */
  const DefaultThreshold: real := 0.5

  /** The default `min_match_count` of `find_all_sift`. */
  const DefaultMinMatchCount: nat := 10

  /** `[point for point, score in result]`: the first component of every pair, in order. */
  function Points<P>(r: seq<(Point, P)>): (pts: seq<Point>)
    ensures |pts| == |r|
    ensures forall k :: 0 <= k < |r| ==> pts[k] == r[k].0
  {
    if r == [] then [] else Points(r[..|r| - 1]) + [r[|r| - 1].0]
  }

  /**
    `find_all`: the keypoint search with its default minimum match count
    when the search image has at least `SiftRichness` keypoints, otherwise
    the template search with its default threshold; a `None` result becomes
    the empty list, and only the points are kept. On the template path
    `found` lists the grid cell behind every point.
   */
  method FindAll(grid: TemplateMatch.Grid, search: seq<FeatureMatch.Feature>, source: seq<FeatureMatch.Feature>,
                 w: nat, h: nat, maxcnt: nat, knn: FeatureMatch.KnnMatcher, corners: FeatureMatch.CornerMapper)
    returns (pts: seq<Point>, ghost found: seq<TemplateMatch.Cell>)
    requires TemplateMatch.IsGrid(grid)
    requires FeatureMatch.KnnIndexed(knn)
    ensures 0 < maxcnt ==> |pts| <= maxcnt
    ensures SiftRichness <= |search| ==>
              pts == (if |source| < DefaultMinMatchCount then []
                      else Points(FeatureMatch.Rounds(FeatureMatch.Stage(search, source),
                                                      FeatureMatch.SiftRound(w, h, DefaultMinMatchCount, knn, corners), maxcnt, 0)))
    ensures SiftRichness <= |search| ==> |pts| <= |search|
    ensures |search| < SiftRichness ==>
              (pts == [] <==> forall c :: TemplateMatch.InGrid(grid, c) ==> TemplateMatch.At(grid, c) < DefaultThreshold)
    ensures |search| < SiftRichness && pts != [] ==>
              exists c :: TemplateMatch.IsFirstMax(grid, c) && pts[0] == TemplateMatch.Center(c, w, h)
    ensures |search| < SiftRichness ==>
              && found == TemplateMatch.Extracted(grid, DefaultThreshold, maxcnt).cells
              && |pts| == |found|
              && (forall k :: 0 <= k < |pts| ==>
                    && TemplateMatch.InGrid(grid, found[k])
                    && DefaultThreshold <= TemplateMatch.At(grid, found[k])
                    && pts[k] == TemplateMatch.Center(found[k], w, h))
              && (forall k, l :: 0 <= k < l < |found| ==> found[k] != found[l] && !TemplateMatch.Adjacent(found[k], found[l]))
  {
    found := [];
    if |search| >= SiftRichness {
      var r := FeatureMatch.FindAllSift(search, source, w, h, DefaultMinMatchCount, maxcnt, knn, corners);
      if r.None? {
        return [], [];
      }
      pts := Points(r.value);
    } else {
      var result;
      ghost var residue;
      result, found, residue := TemplateMatch.FindAllTemplate(grid, w, h, DefaultThreshold, maxcnt);
      pts := Points(result);
      forall k | 0 <= k < |pts|
        ensures pts[k] == TemplateMatch.Center(found[k], w, h)
      {
      }
    }
  }

  /**
    `find`: the first point of `find_all` capped at one occurrence, or
    `None` when there is none.
   */
  method Find(grid: TemplateMatch.Grid, search: seq<FeatureMatch.Feature>, source: seq<FeatureMatch.Feature>,
              w: nat, h: nat, knn: FeatureMatch.KnnMatcher, corners: FeatureMatch.CornerMapper)
    returns (p: Option<Point>)
    requires TemplateMatch.IsGrid(grid)
    requires FeatureMatch.KnnIndexed(knn)
    ensures SiftRichness <= |search| ==>
              (p.None? <==> |source| < DefaultMinMatchCount ||
                            |FeatureMatch.StageGood(FeatureMatch.Stage(search, source), knn)| < DefaultMinMatchCount)
    ensures SiftRichness <= |search| && p.Some? ==>
              var first := FeatureMatch.Round(FeatureMatch.Stage(search, source), w, h, DefaultMinMatchCount, knn, corners);
              first.Report? && p.value == first.entry.0
    ensures |search| < SiftRichness ==>
              (p.None? <==> forall c :: TemplateMatch.InGrid(grid, c) ==> TemplateMatch.At(grid, c) < DefaultThreshold)
    ensures |search| < SiftRichness && p.Some? ==>
              exists c :: TemplateMatch.IsFirstMax(grid, c) && p.value == TemplateMatch.Center(c, w, h)
  {
    var pts, found := FindAll(grid, search, source, w, h, 1, knn, corners);
    p := First(pts);
  }
}

=== FILE: template_match.dfy ===
/**
  The correlation strategy of aircv.py: repeated extraction of the best
  placement from the score grid that `cv2.matchTemplate` produced, with
  flood-fill suppression of every region already reported.

  The grid itself is computed by OpenCV (grey or weighted-colour correlation,
  optional Canny edges); here it is an input value. As in aircv.py, the loop
  works on its own copy of the grid and overwrites it in place.
 */
module TemplateMatch {
  import opened Common

  /** The value `floodFill` writes over a found region (aircv.py:138). */
  const Suppressed: real := -1000.0

  /** Lower and upper tolerances aircv.py hands to `floodFill`, relative to the found maximum. */
  const FillMargin: real := 0.1
  const FillUpDiff: real := 1.0

  /** The lower difference handed to `floodFill` for a match of score `score`: `max_val - threshold + 0.1`. */
  function FillLow(score: real, threshold: real): real
  {
    score - threshold + FillMargin
  }

  /** A cell of the score grid: a row (y) and a column (x). */
  datatype Cell = Cell(row: nat, col: nat)

  /** The score grid, row by row. */
  type Grid = seq<seq<real>>

  /** A reported occurrence: its centre point and its score (`(middle_point, max_val)`). */
  type Occurrence = (Point, real)

  /** What `matchTemplate` returns: at least one row and one column, all rows as long. */
  predicate IsGrid(g: Grid)
  {
    |g| > 0 && |g[0]| > 0 && forall i :: 0 <= i < |g| ==> |g[i]| == |g[0]|
  }

  predicate InGrid(g: Grid, c: Cell)
    requires IsGrid(g)
  {
    c.row < |g| && c.col < |g[0]|
  }

  function At(g: Grid, c: Cell): real
    requires IsGrid(g) && InGrid(g, c)
  {
    g[c.row][c.col]
  }

  predicate SameShape(a: Grid, b: Grid)
    requires IsGrid(b)
  {
    IsGrid(a) && |a| == |b| && |a[0]| == |b[0]|
  }

  /** Row-major order: the order in which `minMaxLoc` scans a grid. */
  predicate Before(a: Cell, b: Cell)
  {
    a.row < b.row || (a.row == b.row && a.col < b.col)
  }

  /** `c` holds the grid's maximum and no earlier cell (row-major) reaches it. */
  ghost predicate IsFirstMax(g: Grid, c: Cell)
    requires IsGrid(g)
  {
    && InGrid(g, c)
    && (forall d :: InGrid(g, d) ==> At(g, d) <= At(g, c))
    && (forall d :: InGrid(g, d) && Before(d, c) ==> At(g, d) < At(g, c))
  }

  /** The first maximum of a grid is unique: the template result does not depend on a choice. */
  lemma FirstMaxUnique(g: Grid, a: Cell, b: Cell)
    requires IsGrid(g) && IsFirstMax(g, a) && IsFirstMax(g, b)
    ensures a == b
  {
  }

  /** The first maximum of `r[..n]`: a later cell replaces the best so far only when it is strictly greater. */
  ghost function RowFirstMax(r: seq<real>, n: nat): (j: nat)
    requires 0 < n <= |r|
    ensures j < n
    ensures forall k :: 0 <= k < n ==> r[k] <= r[j]
    ensures forall k :: 0 <= k < j ==> r[k] < r[j]
  {
    if n == 1 then 0
    else
      var j := RowFirstMax(r, n - 1);
      if r[j] < r[n - 1] then n - 1 else j
  }

  /** The first maximum, in row-major order, of the grid's first `m` rows. */
  ghost function RowsFirstMax(g: Grid, m: nat): (c: Cell)
    requires IsGrid(g) && 0 < m <= |g|
    ensures InGrid(g, c) && c.row < m
    ensures forall d :: InGrid(g, d) && d.row < m ==> At(g, d) <= At(g, c)
    ensures forall d :: InGrid(g, d) && d.row < m && Before(d, c) ==> At(g, d) < At(g, c)
  {
    var j := RowFirstMax(g[m - 1], |g[0]|);
    if m == 1 then Cell(0, j)
    else
      var c := RowsFirstMax(g, m - 1);
      if At(g, c) < g[m - 1][j] then Cell(m - 1, j) else c
  }

  /** The cell `minMaxLoc` reports as `max_loc`. */
  ghost function FirstMax(g: Grid): (c: Cell)
    requires IsGrid(g)
    ensures IsFirstMax(g, c)
  {
    assert IsFirstMax(g, RowsFirstMax(g, |g|));
    var c :| IsFirstMax(g, c); c
  }

  /** `top_left + (w/2, h/2)` with Python 2 integer division; `top_left` is `(column, row)`. */
  function Center(c: Cell, w: nat, h: nat): (p: Point)
    ensures p.x - c.col == w / 2 && p.y - c.row == h / 2
  {
    Point(c.col + w / 2, c.row + h / 2)
  }

  /** The cells whose score still reaches `threshold`: the extraction loop's termination measure. */
  ghost function AboveSet(g: Grid, threshold: real): set<Cell>
    requires IsGrid(g)
  {
    set i: nat, j: nat | i < |g| && j < |g[0]| && threshold <= g[i][j] :: Cell(i, j)
  }

  /**
    One suppression step cannot add a cell at or above a threshold that lies
    above the fill value, and it removes the seed: the set of live cells shrinks.
   */
  lemma SuppressionShrinks(before: Grid, after: Grid, seed: Cell, threshold: real)
    requires IsGrid(before) && SameShape(after, before)
    requires Suppressed < threshold
    requires InGrid(before, seed) && threshold <= At(before, seed) && At(after, seed) == Suppressed
    requires forall c :: InGrid(before, c) ==> At(after, c) == At(before, c) || At(after, c) == Suppressed
    ensures AboveSet(after, threshold) < AboveSet(before, threshold)
    ensures |AboveSet(after, threshold)| < |AboveSet(before, threshold)|
  {
    var pre, post := AboveSet(before, threshold), AboveSet(after, threshold);
    forall c | c in post
      ensures c in pre
    {
      assert InGrid(before, c) && threshold <= At(after, c);
    }
    assert seed in pre && seed !in post;
    var rest := pre - {seed} - post;
    assert pre - {seed} == post + rest;
    assert post * rest == {};
  }

  predicate InArray(a: array2<real>, c: Cell)
  {
    c.row < a.Length0 && c.col < a.Length1
  }

  /** The array's current contents as a grid value. */
  ghost function Snapshot(a: array2<real>): (g: Grid)
    reads a
    ensures |g| == a.Length0
    ensures forall i :: 0 <= i < a.Length0 ==> |g[i]| == a.Length1
    ensures forall i, j :: 0 <= i < a.Length0 && 0 <= j < a.Length1 ==> g[i][j] == a[i, j]
  {
    seq(a.Length0, i requires 0 <= i < a.Length0 reads a =>
      seq(a.Length1, j requires 0 <= j < a.Length1 reads a => a[i, j]))
  }

  /**
    `cv2.minMaxLoc` on the grid, maximum half: the location of the largest
    score, the first one in row-major order when several cells tie.
   */
  method MaxLoc(res: array2<real>) returns (maxVal: real, loc: Cell)
    requires res.Length0 > 0 && res.Length1 > 0
    ensures InArray(res, loc) && maxVal == res[loc.row, loc.col]
    ensures forall i, j :: 0 <= i < res.Length0 && 0 <= j < res.Length1 ==> res[i, j] <= res[loc.row, loc.col]
    ensures forall i, j :: 0 <= i < res.Length0 && 0 <= j < res.Length1 && Before(Cell(i, j), loc) ==>
              res[i, j] < res[loc.row, loc.col]
    ensures IsGrid(Snapshot(res)) && IsFirstMax(Snapshot(res), loc) && maxVal == At(Snapshot(res), loc)
    ensures loc == FirstMax(Snapshot(res))
  {
    loc := Cell(0, 0);
    var best := res[0, 0];
    var i := 0;
    while i < res.Length0
      invariant 0 <= i <= res.Length0
      invariant InArray(res, loc) && best == res[loc.row, loc.col]
      invariant loc.row < i || loc == Cell(0, 0)
      invariant forall r, c :: 0 <= r < i && 0 <= c < res.Length1 ==> res[r, c] <= best
      invariant forall r, c :: 0 <= r < i && 0 <= c < res.Length1 && Before(Cell(r, c), loc) ==> res[r, c] < best
    {
      var j := 0;
      while j < res.Length1
        invariant 0 <= j <= res.Length1
        invariant InArray(res, loc) && best == res[loc.row, loc.col]
        invariant !Before(Cell(i, j), loc)
        invariant forall r, c :: 0 <= r < res.Length0 && 0 <= c < res.Length1 && (r < i || (r == i && c < j)) ==>
                    res[r, c] <= best
        invariant forall r, c ::
                    0 <= r < res.Length0 && 0 <= c < res.Length1 && (r < i || (r == i && c < j)) && Before(Cell(r, c), loc)
                    ==> res[r, c] < best
      {
        if res[i, j] > best {
          loc, best := Cell(i, j), res[i, j];
        }
        j := j + 1;
      }
      i := i + 1;
    }
    maxVal := best;
    FirstMaxOfSnapshot(res, loc);
    FirstMaxUnique(Snapshot(res), loc, FirstMax(Snapshot(res)));
  }

  /** The maximum `MaxLoc` finds in the array is the first maximum of the array's contents. */
  lemma FirstMaxOfSnapshot(res: array2<real>, loc: Cell)
    requires res.Length0 > 0 && res.Length1 > 0 && InArray(res, loc)
    requires forall i, j :: 0 <= i < res.Length0 && 0 <= j < res.Length1 ==> res[i, j] <= res[loc.row, loc.col]
    requires forall i, j :: 0 <= i < res.Length0 && 0 <= j < res.Length1 && Before(Cell(i, j), loc) ==>
               res[i, j] < res[loc.row, loc.col]
    ensures IsGrid(Snapshot(res)) && IsFirstMax(Snapshot(res), loc)
  {
    var g := Snapshot(res);
    forall d | InGrid(g, d)
      ensures At(g, d) <= At(g, loc)
      ensures Before(d, loc) ==> At(g, d) < At(g, loc)
    {
      assert At(g, d) == res[d.row, d.col];
    }
  }

  /** Cells sharing a side: `floodFill`'s default 4-connectivity. */
  predicate Adjacent(c: Cell, d: Cell)
  {
    || (c.row == d.row && (c.col + 1 == d.col || d.col + 1 == c.col))
    || (c.col == d.col && (c.row + 1 == d.row || d.row + 1 == c.row))
  }

  /** The 4-neighbours of `c` inside a `rows` by `cols` grid. */
  function Neighbours(c: Cell, rows: nat, cols: nat): (ns: seq<Cell>)
    requires c.row < rows && c.col < cols
    ensures forall d :: d in ns ==> Adjacent(c, d) && d.row < rows && d.col < cols
    ensures forall d :: Adjacent(c, d) && d.row < rows && d.col < cols ==> d in ns
  {
    (if 0 < c.row then [Cell(c.row - 1, c.col)] else []) +
    (if c.row + 1 < rows then [Cell(c.row + 1, c.col)] else []) +
    (if 0 < c.col then [Cell(c.row, c.col - 1)] else []) +
    (if c.col + 1 < cols then [Cell(c.row, c.col + 1)] else [])
  }

  /** FLOODFILL_FIXED_RANGE: a value joins the region when it lies in [seed - loDiff, seed + upDiff]. */
  predicate Within(v: real, seedVal: real, loDiff: real, upDiff: real)
  {
    seedVal - loDiff <= v <= seedVal + upDiff
  }

  /** No cell of `s` has an in-range side neighbour outside `s`. */
  ghost predicate Closed(g: Grid, seed: Cell, loDiff: real, upDiff: real, s: set<Cell>)
    requires IsGrid(g) && InGrid(g, seed)
  {
    forall c, d :: c in s && Adjacent(c, d) && InGrid(g, d) && Within(At(g, d), At(g, seed), loDiff, upDiff) ==> d in s
  }

  /**
    `c` is joined to the seed by side steps through in-range cells: it is an
    in-range cell of the grid that belongs to every closed set holding the seed.
   */
  ghost predicate Reaches(g: Grid, seed: Cell, loDiff: real, upDiff: real, c: Cell)
    requires IsGrid(g) && InGrid(g, seed)
  {
    && InGrid(g, c) && Within(At(g, c), At(g, seed), loDiff, upDiff)
    && forall s {:trigger Closed(g, seed, loDiff, upDiff, s)} :: seed in s && Closed(g, seed, loDiff, upDiff, s) ==> c in s
  }

  /** The cells of row `i` before column `n` that the seed reaches. */
  ghost function RowReached(g: Grid, seed: Cell, loDiff: real, upDiff: real, i: nat, n: nat): (r: set<Cell>)
    requires IsGrid(g) && InGrid(g, seed) && i < |g| && n <= |g[0]|
    ensures forall c :: c in r <==> c.row == i && c.col < n && Reaches(g, seed, loDiff, upDiff, c)
  {
    if n == 0 then {}
    else RowReached(g, seed, loDiff, upDiff, i, n - 1) + (if Reaches(g, seed, loDiff, upDiff, Cell(i, n - 1)) then {Cell(i, n - 1)} else {})
  }

  /** The cells of the first `m` rows that the seed reaches. */
  ghost function RowsReached(g: Grid, seed: Cell, loDiff: real, upDiff: real, m: nat): (r: set<Cell>)
    requires IsGrid(g) && InGrid(g, seed) && m <= |g|
    ensures forall c :: c in r <==> c.row < m && Reaches(g, seed, loDiff, upDiff, c)
  {
    if m == 0 then {} else RowsReached(g, seed, loDiff, upDiff, m - 1) + RowReached(g, seed, loDiff, upDiff, m - 1, |g[0]|)
  }

  /** `r` holds exactly the cells the seed reaches. */
  ghost predicate AllReached(g: Grid, seed: Cell, loDiff: real, upDiff: real, r: set<Cell>)
    requires IsGrid(g) && InGrid(g, seed)
  {
    forall c :: c in r <==> Reaches(g, seed, loDiff, upDiff, c)
  }

  /** The region `floodFill` paints with FLOODFILL_FIXED_RANGE and 4-connectivity: every cell the seed reaches. */
  ghost function Component(g: Grid, seed: Cell, loDiff: real, upDiff: real): (r: set<Cell>)
    requires IsGrid(g) && InGrid(g, seed)
    ensures forall c :: c in r <==> Reaches(g, seed, loDiff, upDiff, c)
  {
    assert AllReached(g, seed, loDiff, upDiff, RowsReached(g, seed, loDiff, upDiff, |g|));
    var r :| AllReached(g, seed, loDiff, upDiff, r); r
  }

  /** With non-negative tolerances the seed lies in its own region. */
  lemma ComponentSeed(g: Grid, seed: Cell, loDiff: real, upDiff: real)
    requires IsGrid(g) && InGrid(g, seed) && 0.0 <= loDiff && 0.0 <= upDiff
    ensures seed in Component(g, seed, loDiff, upDiff)
  {
  }

  /** Every cell of the region is in the grid and in range, and the region is closed. */
  lemma ComponentClosed(g: Grid, seed: Cell, loDiff: real, upDiff: real)
    requires IsGrid(g) && InGrid(g, seed)
    ensures forall c :: c in Component(g, seed, loDiff, upDiff) ==> InGrid(g, c) && Within(At(g, c), At(g, seed), loDiff, upDiff)
    ensures Closed(g, seed, loDiff, upDiff, Component(g, seed, loDiff, upDiff))
  {
    var comp := Component(g, seed, loDiff, upDiff);
    forall c, d | c in comp && Adjacent(c, d) && InGrid(g, d) && Within(At(g, d), At(g, seed), loDiff, upDiff)
      ensures d in comp
    {
      forall s | seed in s && Closed(g, seed, loDiff, upDiff, s)
        ensures d in s
      {
        assert c in s;
      }
    }
  }

  /** The region is the least closed set holding the seed: it lies inside every other one. */
  lemma ComponentLeast(g: Grid, seed: Cell, loDiff: real, upDiff: real, s: set<Cell>)
    requires IsGrid(g) && InGrid(g, seed)
    requires seed in s && Closed(g, seed, loDiff, upDiff, s)
    ensures Component(g, seed, loDiff, upDiff) <= s
  {
  }

  /** A closed, in-range set holding the seed that lies inside every closed set holding the seed is the region. */
  lemma ComponentIs(g: Grid, seed: Cell, loDiff: real, upDiff: real, region: set<Cell>)
    requires IsGrid(g) && InGrid(g, seed)
    requires seed in region && Closed(g, seed, loDiff, upDiff, region)
    requires forall c :: c in region ==> InGrid(g, c) && Within(At(g, c), At(g, seed), loDiff, upDiff)
    requires forall s :: seed in s && Closed(g, seed, loDiff, upDiff, s) ==> region <= s
    ensures region == Component(g, seed, loDiff, upDiff)
  {
    ComponentLeast(g, seed, loDiff, upDiff, region);
  }

  /** The first `n` cells of row `i`, with the cells of `region` overwritten by `Suppressed`. */
  ghost function PaintedRow(row: seq<real>, i: nat, region: set<Cell>, n: nat): (r: seq<real>)
    requires n <= |row|
    ensures |r| == n
    ensures forall j :: 0 <= j < n ==> r[j] == if Cell(i, j) in region then Suppressed else row[j]
  {
    if n == 0 then [] else PaintedRow(row, i, region, n - 1) + [if Cell(i, n - 1) in region then Suppressed else row[n - 1]]
  }

  /** The first `m` rows of `g`, with the cells of `region` overwritten by `Suppressed`. */
  ghost function PaintedRows(g: Grid, region: set<Cell>, m: nat): (f: Grid)
    requires m <= |g|
    ensures |f| == m
    ensures forall i :: 0 <= i < m ==> f[i] == PaintedRow(g[i], i, region, |g[i]|)
  {
    if m == 0 then [] else PaintedRows(g, region, m - 1) + [PaintedRow(g[m - 1], m - 1, region, |g[m - 1]|)]
  }

  /** `f` is `g` with every cell of `region` overwritten by `Suppressed`. */
  ghost predicate Painted(g: Grid, region: set<Cell>, f: Grid)
    requires IsGrid(g)
  {
    SameShape(f, g) && forall c :: InGrid(g, c) ==> At(f, c) == if c in region then Suppressed else At(g, c)
  }

  /** The grid after `floodFill` writes `Suppressed` over the seed's region. */
  ghost function Fill(g: Grid, seed: Cell, loDiff: real, upDiff: real): (f: Grid)
    requires IsGrid(g) && InGrid(g, seed)
    ensures SameShape(f, g)
    ensures forall c :: InGrid(g, c) ==> At(f, c) == if c in Component(g, seed, loDiff, upDiff) then Suppressed else At(g, c)
  {
    var region := Component(g, seed, loDiff, upDiff);
    assert Painted(g, region, PaintedRows(g, region, |g|));
    var f :| Painted(g, region, f); f
  }

  /** Two grids of one shape that agree on every cell are equal. */
  lemma SameCells(a: Grid, b: Grid)
    requires IsGrid(b) && SameShape(a, b)
    requires forall c :: InGrid(b, c) ==> At(a, c) == At(b, c)
    ensures a == b
  {
    forall i | 0 <= i < |a|
      ensures a[i] == b[i]
    {
      forall j | 0 <= j < |a[i]|
        ensures a[i][j] == b[i][j]
      {
        assert At(a, Cell(i, j)) == At(b, Cell(i, j));
      }
    }
  }

  /**
    The worklist's progress towards the region: every cell of `region`, and
    every in-range cell still waiting in `pending`, lies in each closed set
    holding the seed.
   */
  ghost predicate InEveryClosed(g: Grid, seed: Cell, loDiff: real, upDiff: real, region: set<Cell>, pending: seq<Cell>)
    requires IsGrid(g) && InGrid(g, seed)
  {
    forall s {:trigger Closed(g, seed, loDiff, upDiff, s)} :: seed in s && Closed(g, seed, loDiff, upDiff, s) ==>
      && region <= s
      && forall d :: d in pending && InGrid(g, d) && Within(At(g, d), At(g, seed), loDiff, upDiff) ==> d in s
  }

  /**
    Popping `c` from the worklist keeps the progress, both when `c` is
    dropped and when it joins the region and its neighbours are pushed.
   */
  lemma VisitInEveryClosed(g: Grid, seed: Cell, loDiff: real, upDiff: real, region: set<Cell>, stack: seq<Cell>, c: Cell)
    requires IsGrid(g) && InGrid(g, seed) && InGrid(g, c)
    requires InEveryClosed(g, seed, loDiff, upDiff, region, stack + [c])
    ensures InEveryClosed(g, seed, loDiff, upDiff, region, stack)
    ensures Within(At(g, c), At(g, seed), loDiff, upDiff) ==>
              InEveryClosed(g, seed, loDiff, upDiff, region + {c}, stack + Neighbours(c, |g|, |g[0]|))
  {
    forall s | seed in s && Closed(g, seed, loDiff, upDiff, s)
      ensures forall d :: d in stack && InGrid(g, d) && Within(At(g, d), At(g, seed), loDiff, upDiff) ==> d in s
    {
      forall d | d in stack && InGrid(g, d) && Within(At(g, d), At(g, seed), loDiff, upDiff)
        ensures d in s
      {
        assert d in stack + [c];
      }
    }
    if Within(At(g, c), At(g, seed), loDiff, upDiff) {
      forall s | seed in s && Closed(g, seed, loDiff, upDiff, s)
        ensures c in s
      {
        assert c in stack + [c];
      }
    }
  }

  /**
    The region `floodFill` paints, with FLOODFILL_FIXED_RANGE and 4-connectivity:
    the seed together with every cell reachable from it through side-adjacent
    cells whose value lies within [seed - loDiff, seed + upDiff]. The grid is
    only read here; OpenCV's fill mask is the set of examined cells.
   */
  method FillRegion(res: array2<real>, seed: Cell, loDiff: real, upDiff: real) returns (region: set<Cell>)
    requires InArray(res, seed)
    requires 0.0 <= loDiff && 0.0 <= upDiff
    ensures seed in region
    ensures forall c :: c in region ==> InArray(res, c) && Within(res[c.row, c.col], res[seed.row, seed.col], loDiff, upDiff)
    ensures forall c, d ::
              c in region && Adjacent(c, d) && InArray(res, d) && Within(res[d.row, d.col], res[seed.row, seed.col], loDiff, upDiff)
              ==> d in region
    ensures IsGrid(Snapshot(res)) && InGrid(Snapshot(res), seed)
    ensures forall s :: seed in s && Closed(Snapshot(res), seed, loDiff, upDiff, s) ==> region <= s
  {
    ghost var g := Snapshot(res);
    var seedVal := res[seed.row, seed.col];
    var unseen := set i: nat, j: nat | i < res.Length0 && j < res.Length1 :: Cell(i, j);
    region := {};
    var stack := [seed];
    while stack != []
      invariant forall d :: d in stack ==> InArray(res, d)
      invariant forall c :: c in region ==> InArray(res, c) && c !in unseen && Within(res[c.row, c.col], seedVal, loDiff, upDiff)
      invariant forall c :: InArray(res, c) && c !in unseen && Within(res[c.row, c.col], seedVal, loDiff, upDiff) ==> c in region
      invariant forall c, d :: c in region && Adjacent(c, d) && InArray(res, d) ==> d !in unseen || d in stack
      invariant seed !in unseen || seed in stack
      invariant InEveryClosed(g, seed, loDiff, upDiff, region, stack)
      decreases |unseen|, |stack|
    {
      var c := stack[|stack| - 1];
      ghost var popped := stack;
      stack := stack[..|stack| - 1];
      assert forall d :: d in popped <==> d in stack || d == c by {
        assert popped == stack + [c];
      }
      assert At(g, c) == res[c.row, c.col];
      VisitInEveryClosed(g, seed, loDiff, upDiff, region, stack, c);
      if c in unseen {
        unseen := unseen - {c};
        if Within(res[c.row, c.col], seedVal, loDiff, upDiff) {
          region := region + {c};
          stack := stack + Neighbours(c, res.Length0, res.Length1);
        }
      }
    }
  }

  /** Writes `Suppressed` over every cell of `region` and leaves the others alone. */
  method Paint(res: array2<real>, region: set<Cell>)
    requires forall c :: c in region ==> InArray(res, c)
    modifies res
    ensures forall c :: InArray(res, c) ==> res[c.row, c.col] == if c in region then Suppressed else old(res[c.row, c.col])
  {
    var todo := region;
    while todo != {}
      invariant todo <= region
      invariant forall c :: InArray(res, c) ==>
                  res[c.row, c.col] == if c in region && c !in todo then Suppressed else old(res[c.row, c.col])
      decreases |todo|
    {
      var c :| c in todo;
      res[c.row, c.col] := Suppressed;
      todo := todo - {c};
    }
  }

  /**
    `cv2.floodFill(res, None, seed, (-1000,), loDiff, upDiff, flags=FLOODFILL_FIXED_RANGE)`:
    every cell of the seed's fixed-range 4-connected region is overwritten
    with `Suppressed`; the ghost result is that region.
   */
  method FloodFill(res: array2<real>, seed: Cell, loDiff: real, upDiff: real) returns (ghost region: set<Cell>)
    requires InArray(res, seed)
    requires 0.0 <= loDiff && 0.0 <= upDiff
    modifies res
    ensures seed in region
    ensures forall c :: c in region ==>
              && InArray(res, c)
              && res[c.row, c.col] == Suppressed
              && Within(old(res[c.row, c.col]), old(res[seed.row, seed.col]), loDiff, upDiff)
    ensures forall c :: InArray(res, c) && c !in region ==> res[c.row, c.col] == old(res[c.row, c.col])
    ensures forall c, d ::
              c in region && Adjacent(c, d) && InArray(res, d) &&
              Within(old(res[d.row, d.col]), old(res[seed.row, seed.col]), loDiff, upDiff)
              ==> d in region
    ensures IsGrid(old(Snapshot(res))) && region == Component(old(Snapshot(res)), seed, loDiff, upDiff)
    ensures Snapshot(res) == Fill(old(Snapshot(res)), seed, loDiff, upDiff)
  {
    ghost var g := Snapshot(res);
    var filled := FillRegion(res, seed, loDiff, upDiff);
    assert Closed(g, seed, loDiff, upDiff, filled) by {
      forall c, d | c in filled && Adjacent(c, d) && InGrid(g, d) && Within(At(g, d), At(g, seed), loDiff, upDiff)
        ensures d in filled
      {
        assert At(g, d) == res[d.row, d.col];
      }
    }
    forall c | c in filled
      ensures InGrid(g, c) && Within(At(g, c), At(g, seed), loDiff, upDiff)
    {
      assert At(g, c) == res[c.row, c.col];
    }
    ComponentIs(g, seed, loDiff, upDiff, filled);
    Paint(res, filled);
    region := filled;
    ghost var f := Fill(g, seed, loDiff, upDiff);
    forall c | InGrid(g, c)
      ensures At(Snapshot(res), c) == At(f, c)
    {
      assert At(g, c) == old(res[c.row, c.col]);
    }
    SameCells(Snapshot(res), f);
  }

  /**
    The outcome of the extraction loop: the cell of every reported match,
    the `max_val` reported with it, and the working grid when it stops.
   */
  datatype Extraction = Extraction(cells: seq<Cell>, scores: seq<real>, rest: Grid)

  /**
    What `find_all_template`'s loop computes from the working grid `g` when
    at most `cap` more matches may be reported (0: no cap): it stops at a
    first maximum below the threshold; otherwise it reports that cell and,
    unless the cap is reached, fills its region with lower difference
    `max_val - threshold + 0.1` and upper difference 1 and goes on.
   */
  ghost function Extracted(g: Grid, threshold: real, cap: nat): (e: Extraction)
    requires IsGrid(g)
    requires Suppressed < threshold || 0 < cap
    ensures SameShape(e.rest, g)
    ensures |e.scores| == |e.cells|
    ensures 0 < cap ==> |e.cells| <= cap
    decreases if 0 < cap then cap else 0, |AboveSet(g, threshold)|
  {
    var loc := FirstMax(g);
    var score := At(g, loc);
    if score < threshold then Extraction([], [], g)
    else if cap == 1 then Extraction([loc], [score], g)
    else
      var lo := FillLow(score, threshold);
      var next := Fill(g, loc, lo, FillUpDiff);
      assert cap == 0 ==> |AboveSet(next, threshold)| < |AboveSet(g, threshold)| by {
        if cap == 0 {
          FillShrinks(g, threshold, loc);
        }
      }
      var e := Extracted(next, threshold, if cap == 0 then 0 else cap - 1);
      Extraction([loc] + e.cells, [score] + e.scores, e.rest)
  }

  /**
    Unless the cap stopped it, the loop ends only when every cell of the
    working grid is below the threshold.
   */
  lemma {:induction false} ExtractedExhausts(g: Grid, threshold: real, cap: nat)
    requires IsGrid(g) && (Suppressed < threshold || 0 < cap)
    ensures var e := Extracted(g, threshold, cap);
            cap == 0 || |e.cells| < cap ==> forall c :: InGrid(g, c) ==> At(e.rest, c) < threshold
    decreases if 0 < cap then cap else 0, |AboveSet(g, threshold)|
  {
    var loc := FirstMax(g);
    ExtractedStep(g, threshold, cap, loc);
    if threshold <= At(g, loc) && cap != 1 {
      var next := Fill(g, loc, FillLow(At(g, loc), threshold), FillUpDiff);
      var cap' := if cap == 0 then 0 else cap - 1;
      if cap == 0 {
        FillShrinks(g, threshold, loc);
      }
      ExtractedExhausts(next, threshold, cap');
      var e, e' := Extracted(g, threshold, cap), Extracted(next, threshold, cap');
      assert e == Extraction([loc] + e'.cells, [At(g, loc)] + e'.scores, e'.rest);
      if cap == 0 || |e.cells| < cap {
        forall c | InGrid(g, c)
          ensures At(e.rest, c) < threshold
        {
          assert InGrid(next, c);
        }
      }
    }
  }

  /** The fill of a round that reached a threshold above the fill value removes at least one live cell. */
  lemma FillShrinks(g: Grid, threshold: real, loc: Cell)
    requires IsGrid(g) && InGrid(g, loc) && threshold <= At(g, loc) && Suppressed < threshold
    ensures |AboveSet(Fill(g, loc, FillLow(At(g, loc), threshold), FillUpDiff), threshold)| < |AboveSet(g, threshold)|
  {
    ComponentSeed(g, loc, FillLow(At(g, loc), threshold), FillUpDiff);
    SuppressionShrinks(g, Fill(g, loc, FillLow(At(g, loc), threshold), FillUpDiff), loc, threshold);
  }

  /** One unfolding of `Extracted` at the first maximum `loc`: stop, stop at the cap, or fill and go on. */
  lemma ExtractedStep(g: Grid, threshold: real, cap: nat, loc: Cell)
    requires IsGrid(g) && (Suppressed < threshold || 0 < cap) && IsFirstMax(g, loc)
    ensures At(g, loc) < threshold ==> Extracted(g, threshold, cap) == Extraction([], [], g)
    ensures threshold <= At(g, loc) && cap == 1 ==> Extracted(g, threshold, cap) == Extraction([loc], [At(g, loc)], g)
    ensures threshold <= At(g, loc) && cap != 1 ==>
              var e := Extracted(Fill(g, loc, FillLow(At(g, loc), threshold), FillUpDiff), threshold, if cap == 0 then 0 else cap - 1);
              Extracted(g, threshold, cap) == Extraction([loc] + e.cells, [At(g, loc)] + e.scores, e.rest)
  {
    FirstMaxUnique(g, loc, FirstMax(g));
    if threshold <= At(g, loc) && cap != 1 {
      var next := Fill(g, loc, FillLow(At(g, loc), threshold), FillUpDiff);
      assert FirstMax(g) == loc;
      assert Fill(g, FirstMax(g), FillLow(At(g, FirstMax(g)), threshold), FillUpDiff) == next;
    }
  }

  /**
    What the matches reported so far satisfy: each is the centre of a grid
    cell at or above the threshold, the first is the grid's first maximum,
    and (with the threshold above the fill value) each score is the cell's
    original score, no cell is reported twice or next to an earlier match's
    cell (the fill covered it), and scores never increase.
   */
  ghost predicate Reported(grid: Grid, w: nat, h: nat, threshold: real, result: seq<Occurrence>, found: seq<Cell>)
    requires IsGrid(grid)
  {
    && |found| == |result|
    && (forall k :: 0 <= k < |result| ==>
          InGrid(grid, found[k]) && result[k].0 == Center(found[k], w, h) && threshold <= result[k].1)
    && (result != [] ==> IsFirstMax(grid, found[0]) && result[0].1 == At(grid, found[0]))
    && (Suppressed < threshold ==> forall k :: 0 <= k < |result| ==> result[k].1 == At(grid, found[k]))
    && (Suppressed < threshold ==> forall k, l :: 0 <= k < l < |result| ==>
          found[k] != found[l] && !Adjacent(found[k], found[l]) && result[l].1 <= result[k].1)
  }

  /**
    How the working grid `cur` relates to the original one: each cell keeps
    its score or holds the fill value, nothing is filled before the first
    match, every reported cell is filled and its side neighbours are below
    the threshold, and no live cell beats the last score.
   */
  ghost predicate Working(grid: Grid, cur: Grid, threshold: real, result: seq<Occurrence>, found: seq<Cell>)
    requires IsGrid(grid)
  {
    && SameShape(cur, grid)
    && (forall c :: InGrid(grid, c) ==> At(cur, c) == At(grid, c) || At(cur, c) == Suppressed)
    && (result == [] ==> cur == grid)
    && (Suppressed < threshold ==> forall k :: 0 <= k < |found| ==> InGrid(grid, found[k]) && At(cur, found[k]) == Suppressed)
    && (Suppressed < threshold ==> forall k, d :: 0 <= k < |found| && InGrid(grid, d) && Adjacent(found[k], d) ==> At(cur, d) < threshold)
    && (Suppressed < threshold && result != [] ==>
          forall c :: InGrid(grid, c) && threshold <= At(cur, c) ==> At(cur, c) <= result[|result| - 1].1)
  }

  /** Recording the working grid's first maximum keeps the promises about the reported matches. */
  lemma RecordKeepsReported(grid: Grid, cur: Grid, w: nat, h: nat, threshold: real,
                            result: seq<Occurrence>, found: seq<Cell>, loc: Cell)
    requires IsGrid(grid) && IsGrid(cur)
    requires Reported(grid, w, h, threshold, result, found) && Working(grid, cur, threshold, result, found)
    requires IsFirstMax(cur, loc) && threshold <= At(cur, loc)
    ensures Reported(grid, w, h, threshold, result + [(Center(loc, w, h), At(cur, loc))], found + [loc])
  {
    var result', found' := result + [(Center(loc, w, h), At(cur, loc))], found + [loc];
    if result == [] {
      assert cur == grid;
    }
    if Suppressed < threshold {
      forall k, l | 0 <= k < l < |result'|
        ensures found'[k] != found'[l] && !Adjacent(found'[k], found'[l]) && result'[l].1 <= result'[k].1
      {
        if l == |result| {
          assert At(cur, found[k]) == Suppressed;
        }
      }
    }
  }

  /**
    Filling a region that contains the recorded maximum keeps the working
    grid's relation to the original grid and to the matches now reported.
   */
  lemma SuppressKeepsWorking(grid: Grid, cur: Grid, next: Grid, w: nat, h: nat, threshold: real,
                             result: seq<Occurrence>, found: seq<Cell>, loc: Cell, region: set<Cell>)
    requires IsGrid(grid) && IsGrid(cur)
    requires Working(grid, cur, threshold, result, found)
    requires IsFirstMax(cur, loc) && threshold <= At(cur, loc)
    requires SameShape(next, grid) && loc in region
    requires forall c :: InGrid(grid, c) ==> At(next, c) == if c in region then Suppressed else At(cur, c)
    requires forall d :: InGrid(grid, d) && Adjacent(loc, d) && d !in region ==> At(cur, d) < threshold
    ensures Working(grid, next, threshold, result + [(Center(loc, w, h), At(cur, loc))], found + [loc])
  {
    var result', found' := result + [(Center(loc, w, h), At(cur, loc))], found + [loc];
    if Suppressed < threshold {
      forall k, d | 0 <= k < |found'| && InGrid(grid, d) && Adjacent(found'[k], d)
        ensures At(next, d) < threshold
      {
      }
      forall c | InGrid(grid, c) && threshold <= At(next, c)
        ensures At(next, c) <= result'[|result'| - 1].1
      {
        assert c !in region;
      }
    }
  }

  /**
    The suppression step of `find_all_template`: `floodFill` from the match
    just recorded, with a lower tolerance of `score - threshold + 0.1` and an
    upper one of 1, keeps the working grid's relation to the original grid
    and, with the threshold above the fill value, removes at least one live cell.
   */
  method SuppressMatch(res: array2<real>, ghost grid: Grid, ghost w: nat, ghost h: nat, threshold: real,
                       ghost result: seq<Occurrence>, ghost found: seq<Cell>, loc: Cell, score: real)
    requires IsGrid(grid) && IsGrid(Snapshot(res))
    requires Working(grid, Snapshot(res), threshold, result, found)
    requires IsFirstMax(Snapshot(res), loc) && score == At(Snapshot(res), loc) && threshold <= score
    modifies res
    ensures IsGrid(Snapshot(res))
    ensures Working(grid, Snapshot(res), threshold, result + [(Center(loc, w, h), score)], found + [loc])
    ensures Suppressed < threshold ==> |AboveSet(Snapshot(res), threshold)| < |AboveSet(old(Snapshot(res)), threshold)|
    ensures Snapshot(res) == Fill(old(Snapshot(res)), loc, FillLow(score, threshold), FillUpDiff)
  {
    ghost var cur := Snapshot(res);
    ghost var region := FloodFill(res, loc, FillLow(score, threshold), FillUpDiff);
    ghost var next := Snapshot(res);
    forall c | InGrid(grid, c)
      ensures At(next, c) == if c in region then Suppressed else At(cur, c)
    {
      assert At(next, c) == res[c.row, c.col];
    }
    forall d | InGrid(grid, d) && Adjacent(loc, d) && d !in region
      ensures At(cur, d) < threshold
    {
      assert At(cur, d) == old(res[d.row, d.col]) && At(cur, d) <= score;
      assert !Within(At(cur, d), score, FillLow(score, threshold), FillUpDiff);
    }
    SuppressKeepsWorking(grid, cur, next, w, h, threshold, result, found, loc, region);
    if Suppressed < threshold {
      SuppressionShrinks(cur, next, loc, threshold);
    }
  }

  /** How many more matches the loop may report after `n` of them (0: no cap). */
  function Remaining(maxcnt: nat, n: nat): nat
    requires maxcnt == 0 || n <= maxcnt
  {
    if maxcnt == 0 then 0 else maxcnt - n
  }

  /**
    The reference outcome on the original grid splits at the working grid
    `cur`: the cells and scores found so far, then the outcome of the loop on `cur`.
   */
  ghost predicate Tracks(grid: Grid, threshold: real, maxcnt: nat, n: nat, found: seq<Cell>, scores: seq<real>, cur: Grid)
    requires IsGrid(grid) && (Suppressed < threshold || 0 < maxcnt)
  {
    && IsGrid(cur) && (maxcnt == 0 || n < maxcnt)
    && var e := Extracted(cur, threshold, Remaining(maxcnt, n));
       Extracted(grid, threshold, maxcnt) == Extraction(found + e.cells, scores + e.scores, e.rest)
  }

  /** `scores` lists the score of every reported match, in order. */
  ghost predicate Scored(result: seq<Occurrence>, scores: seq<real>)
  {
    |scores| == |result| && forall k :: 0 <= k < |result| ==> result[k].1 == scores[k]
  }

  /** Reporting one more match extends the score list by its score. */
  lemma ScoredAppend(result: seq<Occurrence>, scores: seq<real>, o: Occurrence)
    requires Scored(result, scores)
    ensures Scored(result + [o], scores + [o.1])
  {
  }

  /** A first maximum below the threshold ends the loop with the cells found so far. */
  lemma TracksStop(grid: Grid, threshold: real, maxcnt: nat, n: nat, found: seq<Cell>, scores: seq<real>, cur: Grid, loc: Cell)
    requires IsGrid(grid) && (Suppressed < threshold || 0 < maxcnt)
    requires Tracks(grid, threshold, maxcnt, n, found, scores, cur)
    requires IsFirstMax(cur, loc) && At(cur, loc) < threshold
    ensures Extracted(grid, threshold, maxcnt) == Extraction(found, scores, cur)
  {
    ExtractedStep(cur, threshold, Remaining(maxcnt, n), loc);
    assert found + [] == found && scores + [] == scores;
  }

  /** Appending one item and then a tail is appending the item followed by the tail. */
  lemma AppendOne<T>(prefix: seq<T>, x: T, tail: seq<T>)
    ensures prefix + ([x] + tail) == (prefix + [x]) + tail
  {
  }

  /**
    A first maximum at or above the threshold is the next cell: the loop
    ends there at the cap, and otherwise goes on from the filled grid.
   */
  lemma TracksRecord(grid: Grid, threshold: real, maxcnt: nat, n: nat, found: seq<Cell>, scores: seq<real>,
                     cur: Grid, loc: Cell, score: real)
    requires IsGrid(grid) && (Suppressed < threshold || 0 < maxcnt)
    requires Tracks(grid, threshold, maxcnt, n, found, scores, cur)
    requires IsFirstMax(cur, loc) && score == At(cur, loc) && threshold <= score
    ensures 0 < maxcnt && n + 1 == maxcnt ==>
              Extracted(grid, threshold, maxcnt) == Extraction(found + [loc], scores + [score], cur)
    ensures maxcnt == 0 || n + 1 < maxcnt ==>
              Tracks(grid, threshold, maxcnt, n + 1, found + [loc], scores + [score],
                     Fill(cur, loc, FillLow(score, threshold), FillUpDiff))
  {
    var rem := Remaining(maxcnt, n);
    ExtractedStep(cur, threshold, rem, loc);
    if rem != 1 {
      var next := Fill(cur, loc, FillLow(score, threshold), FillUpDiff);
      var e := Extracted(next, threshold, if rem == 0 then 0 else rem - 1);
      assert Extracted(cur, threshold, rem) == Extraction([loc] + e.cells, [score] + e.scores, e.rest);
      AppendOne(found, loc, e.cells);
      AppendOne(scores, score, e.scores);
    }
  }

  /**
    One pass of the `while True` body: `minMaxLoc`, then stop below the
    threshold, or record the match and stop at the cap, or fill its region.
   */
  method ExtractRound(res: array2<real>, ghost grid: Grid, w: nat, h: nat, threshold: real, maxcnt: nat,
                      result: seq<Occurrence>, ghost found: seq<Cell>, ghost scores: seq<real>)
    returns (stop: bool, result': seq<Occurrence>, ghost found': seq<Cell>, ghost scores': seq<real>)
    requires IsGrid(grid) && (Suppressed < threshold || 0 < maxcnt) && IsGrid(Snapshot(res))
    requires Reported(grid, w, h, threshold, result, found) && Working(grid, Snapshot(res), threshold, result, found)
    requires Scored(result, scores) && Tracks(grid, threshold, maxcnt, |result|, found, scores, Snapshot(res))
    modifies res
    ensures IsGrid(Snapshot(res))
    ensures Reported(grid, w, h, threshold, result', found') && Scored(result', scores')
    ensures stop ==> Snapshot(res) == old(Snapshot(res)) && (result' == [] ==> result == [])
    ensures stop ==> Extracted(grid, threshold, maxcnt) == Extraction(found', scores', Snapshot(res))
    ensures !stop ==> Working(grid, Snapshot(res), threshold, result', found')
    ensures !stop ==> |result'| == |result| + 1 && Tracks(grid, threshold, maxcnt, |result'|, found', scores', Snapshot(res))
    ensures !stop ==>
              var loc := FirstMax(old(Snapshot(res)));
              var score := At(old(Snapshot(res)), loc);
              && found' == found + [loc]
              && result' == result + [(Center(loc, w, h), score)]
              && Snapshot(res) == Fill(old(Snapshot(res)), loc, FillLow(score, threshold), FillUpDiff)
    ensures !stop && Suppressed < threshold ==> |AboveSet(Snapshot(res), threshold)| < |AboveSet(old(Snapshot(res)), threshold)|
  {
    var maxVal, loc := MaxLoc(res);
    ghost var cur := Snapshot(res);
    if maxVal < threshold {
      TracksStop(grid, threshold, maxcnt, |result|, found, scores, cur, loc);
      return true, result, found, scores;
    }
    TracksRecord(grid, threshold, maxcnt, |result|, found, scores, cur, loc, maxVal);
    RecordKeepsReported(grid, cur, w, h, threshold, result, found, loc);
    ScoredAppend(result, scores, (Center(loc, w, h), maxVal));
    result', found', scores' := result + [(Center(loc, w, h), maxVal)], found + [loc], scores + [maxVal];
    if 0 < maxcnt && |result| + 1 >= maxcnt {
      return true, result', found', scores';
    }
    SuppressMatch(res, grid, w, h, threshold, result, found, loc, maxVal);
    stop := false;
  }

  /**
    The extraction loop of `find_all_template`, run on the working copy `res`
    of the score grid `grid`: `found` lists the grid cell of every reported
    match and `residue` is the working grid when the loop stops.
   */
  method Extract(res: array2<real>, grid: Grid, w: nat, h: nat, threshold: real, maxcnt: nat)
    returns (result: seq<Occurrence>, ghost found: seq<Cell>, ghost residue: Grid)
    requires IsGrid(grid) && Snapshot(res) == grid
    requires Suppressed < threshold || 0 < maxcnt
    modifies res
    ensures Reported(grid, w, h, threshold, result, found)
    ensures SameShape(residue, grid)
    ensures forall c :: InGrid(grid, c) ==> At(residue, c) == At(grid, c) || At(residue, c) == Suppressed
    ensures result == [] ==> residue == grid
    ensures 0 < maxcnt ==> |result| <= maxcnt
    ensures maxcnt == 0 || |result| < maxcnt ==> forall c :: InGrid(grid, c) ==> At(residue, c) < threshold
    ensures residue == Snapshot(res)
    ensures found == Extracted(grid, threshold, maxcnt).cells && residue == Extracted(grid, threshold, maxcnt).rest
    ensures Scored(result, Extracted(grid, threshold, maxcnt).scores)
  {
    result, found := [], [];
    ghost var scores: seq<real> := [];
    assert found + Extracted(grid, threshold, maxcnt).cells == Extracted(grid, threshold, maxcnt).cells;
    assert scores + Extracted(grid, threshold, maxcnt).scores == Extracted(grid, threshold, maxcnt).scores;
    while true
      invariant IsGrid(Snapshot(res))
      invariant Reported(grid, w, h, threshold, result, found)
      invariant Working(grid, Snapshot(res), threshold, result, found)
      invariant Scored(result, scores) && Tracks(grid, threshold, maxcnt, |result|, found, scores, Snapshot(res))
      decreases if 0 < maxcnt then maxcnt - |result| else 0, |AboveSet(Snapshot(res), threshold)|
    {
      var stop;
      stop, result, found, scores := ExtractRound(res, grid, w, h, threshold, maxcnt, result, found, scores);
      if stop {
        break;
      }
    }
    residue := Snapshot(res);
    ExtractedExhausts(grid, threshold, maxcnt);
  }

  /**
    What the loop's invariants give once it stops: no match at all exactly
    when every score is below the threshold.
   */
  lemma NoMatchIffBelow(grid: Grid, residue: Grid, w: nat, h: nat, threshold: real, maxcnt: nat,
                        result: seq<Occurrence>, found: seq<Cell>)
    requires IsGrid(grid)
    requires Reported(grid, w, h, threshold, result, found)
    requires SameShape(residue, grid) && (result == [] ==> residue == grid)
    requires maxcnt == 0 || |result| < maxcnt ==> forall c :: InGrid(grid, c) ==> At(residue, c) < threshold
    ensures result == [] <==> forall c :: InGrid(grid, c) ==> At(grid, c) < threshold
  {
    if result != [] {
      assert InGrid(grid, found[0]) && threshold <= At(grid, found[0]);
    }
  }

  /**
    `find_all_template`'s extraction over the score grid `grid` of a `w` by
    `h` search image: the loop runs on a copy, so the caller's grid is not
    touched. `found` lists the grid cell of every reported match and
    `residue` is the working copy when the loop stops.
   */
  method FindAllTemplate(grid: Grid, w: nat, h: nat, threshold: real, maxcnt: nat)
    returns (result: seq<Occurrence>, ghost found: seq<Cell>, ghost residue: Grid)
    requires IsGrid(grid)
    requires Suppressed < threshold || 0 < maxcnt
    ensures 0 < maxcnt ==> |result| <= maxcnt
    ensures |found| == |result|
    ensures forall k :: 0 <= k < |result| ==>
              InGrid(grid, found[k]) && result[k].0 == Center(found[k], w, h) && threshold <= result[k].1
    ensures result == [] <==> forall c :: InGrid(grid, c) ==> At(grid, c) < threshold
    ensures result != [] ==> IsFirstMax(grid, found[0]) && result[0].1 == At(grid, found[0])
    ensures Suppressed < threshold ==> forall k :: 0 <= k < |result| ==> result[k].1 == At(grid, found[k])
    ensures Suppressed < threshold ==> forall k, l :: 0 <= k < l < |result| ==>
              found[k] != found[l] && !Adjacent(found[k], found[l]) && result[l].1 <= result[k].1
    ensures SameShape(residue, grid)
    ensures forall c :: InGrid(grid, c) ==> At(residue, c) == At(grid, c) || At(residue, c) == Suppressed
    ensures maxcnt == 0 || |result| < maxcnt ==> forall c :: InGrid(grid, c) ==> At(residue, c) < threshold
    ensures found == Extracted(grid, threshold, maxcnt).cells && residue == Extracted(grid, threshold, maxcnt).rest
    ensures |Extracted(grid, threshold, maxcnt).scores| == |result|
    ensures forall k :: 0 <= k < |result| ==> result[k].1 == Extracted(grid, threshold, maxcnt).scores[k]
  {
    var rows, cols := |grid|, |grid[0]|;
    var res := new real[rows, cols]((i, j) requires 0 <= i < rows && 0 <= j < cols => grid[i][j]);
    assert Snapshot(res) == grid by {
      var cur := Snapshot(res);
      forall i | 0 <= i < rows
        ensures cur[i] == grid[i]
      {
        assert |cur[i]| == |grid[i]|;
      }
    }
    result, found, residue := Extract(res, grid, w, h, threshold, maxcnt);
    NoMatchIffBelow(grid, residue, w, h, threshold, maxcnt, result, found);
  }

  /** `find_template`: the first result of the extraction loop capped at one match, or none. */
  method FindTemplate(grid: Grid, w: nat, h: nat, threshold: real) returns (r: Option<Occurrence>)
    requires IsGrid(grid)
    ensures r.None? <==> forall c :: InGrid(grid, c) ==> At(grid, c) < threshold
    ensures r.Some? ==> exists c :: IsFirstMax(grid, c) && r.value == (Center(c, w, h), At(grid, c))
  {
    var result;
    ghost var found, residue;
    result, found, residue := FindAllTemplate(grid, w, h, threshold, 1);
    r := First(result);
  }
}
